=== FILE: README.md ===
# Wearrow: a verified model of the compass core

Wearrow is a pair of Android apps. One runs on a phone (the handheld) and one on a watch (the wearable). Each shows an arrow pointing at a destination and the distance to it.

The handheld takes the destination from the map URI it was opened with. It then starts the wearable's activity with the destination packed as two big-endian doubles. It keeps a best GPS fix. When it accepts a non-null fix and its API client is connected, it relays that fix to the watch as the same 16-byte payload. An accepted null reading throws before any relay. The wearable decodes the payloads and keeps the user's position in one mutable point. It publishes a new position unless that position coincides with the destination, and it stops when the handheld says so.

This project models the parts of that behaviour that can be stated exactly, and proves properties of them:

- **Payload codec** (module `Payload`). A double is its 64-bit pattern (`bv64`) and a byte is a `bv8`. Each double takes one 8-byte slot, most significant byte first, as in the IEEE 754 binary64 interchange format written big-endian.
  - `ToByteArray` and `ToDoubleArray` are the array loops.
  - They are proved against the sequence functions `Encode` and `Decode`.
  - `Decode(Encode(xs)) == xs` holds for every list of doubles. `Encode(Decode(bs)) == bs` holds when the length of `bs` is a multiple of 8; otherwise `Decode` drops the partial last slot.
- **Java text splitting** (module `JavaText`). This is `String.split` for a plain-text separator, including the removal of trailing empty strings.
- **Destination extraction** (module `HandheldMain`). This is `getPointLocationFromIntent`.
  - It returns the result of the `try` block, or the exception that ended it, and falls back to (0,0).
  - `Double.valueOf` is an abstract parameter.
- **Best-fix rule and handheld state** (module `Handheld`).
  - `isBetterLocation` and `isSameProvider`.
  - The location listener, with its running flag and provider requests.
  - The handheld arrow's `onLocationChanged` fix replacement and relay payload.
- **Orientation listener flags** (module `Sensors`). The two devices' identical sensor listeners are one class.
- **Screen rules** (module `Display`).
  - The (0,0) "not yet known" sentinel.
  - The distance label of `getMlOrKm`, over real kilometres.
  - The bearing normalised into [0, 360).
- **Wearable state** (module `Wearable`).
  - The location listener's toggle and its one-shot background task.
  - `updateLocation`, which creates the point once and then mutates it in place.
  - The message dispatch by path, and `start`/`stop`.
- **Wearable start-up** (module `WearMain`). This is `getLocationFromIntent`.

Common definitions are in module `Common`:

- Java's `==` on doubles: a NaN equals nothing, and +0 equals -0.
- The `(int)` cast: it truncates toward zero and saturates at the `int` range.
- The exceptions that can end a computation, as a `Result`.

## Model

| member | source | states |
|---|---|---|
| Common.DoubleEqualsProperties | Application/src/main/java/com/araujo/jordan/wearrow/RotationArrow.java:80 | Java `==` on doubles (`DoubleEquals`) is symmetric, false whenever a NaN is involved, and true of every non-NaN value with itself; both (+0,+0) and (-0,-0) are the unknown position |
| Common.DoubleToInt | Application/src/main/java/com/araujo/jordan/wearrow/RotationArrow.java:387 | the `(int)` cast stays in the `int` range, keeps the sign, is within 1 of its argument inside the range, is the floor for non-negative arguments, and saturates to INT_MAX or INT_MIN at and beyond the bounds |
| Payload.DecodeEncodeSlot | Application/src/main/java/com/araujo/jordan/wearrow/RotationArrow.java:341 | reading back (`DecodeSlot`) the 8 bytes `putDouble` writes (`EncodeSlot`) gives the same 64-bit pattern |
| Payload.EncodeDecodeSlot | Wearable/src/main/java/com/araujo/jordan/wearrow/WearRotationArrow.java:307 | any 8 bytes read by `getDouble` (`DecodeSlot`) and written again by `putDouble` (`EncodeSlot`) are the same bytes |
| Payload.Encode | Application/src/main/java/com/araujo/jordan/wearrow/RotationArrow.java:337-344 | packing n doubles gives 8·n bytes |
| Payload.Decode | Wearable/src/main/java/com/araujo/jordan/wearrow/WearRotationArrow.java:303-310 | unpacking gives length/8 doubles (integer division) |
| Payload.EncodeSnoc | Application/src/main/java/com/araujo/jordan/wearrow/RotationArrow.java:340-342 | one more double appends its slot after the slots of the others |
| Payload.EncodeAt | Application/src/main/java/com/araujo/jordan/wearrow/RotationArrow.java:341 | slot i of the packed bytes is the big-endian encoding of element i |
| Payload.DecodeAt | Wearable/src/main/java/com/araujo/jordan/wearrow/WearRotationArrow.java:307 | value i decodes bytes [8i, 8i+8) |
| Payload.DecodeIsLocal | Wearable/src/main/java/com/araujo/jordan/wearrow/MainActivity.java:72-74 | value i depends only on bytes 8i..8i+7: arrays agreeing there decode to the same value i |
| Payload.DecodeEncode | Wearable/src/main/java/com/araujo/jordan/wearrow/WearRotationArrow.java:303-310 | unpacking what the handheld packed gives back the original doubles bit for bit |
| Payload.EncodeDecode | Application/src/main/java/com/araujo/jordan/wearrow/RotationArrow.java:337-344 | packing what was unpacked gives back any byte sequence whose length is a multiple of 8 |
| Payload.DecodeIgnoresTail | Wearable/src/main/java/com/araujo/jordan/wearrow/WearRotationArrow.java:305 | bytes after the last whole slot are ignored |
| Payload.PutDouble | Application/src/main/java/com/araujo/jordan/wearrow/RotationArrow.java:341 | `putDouble` at an offset writes that double's slot and leaves every other byte as it was |
| Payload.ToByteArray | Application/src/main/java/com/araujo/jordan/wearrow/RotationArrow.java:337-344 | the byte array has exactly 8·n bytes and holds the slots of the doubles in order; the copy in the handheld `MainActivity` at lines 274-281 is the same code |
| Payload.ToDoubleArray | Wearable/src/main/java/com/araujo/jordan/wearrow/WearRotationArrow.java:303-310 | the double array has length/8 elements, each decoded from its own slot; the copy in the wearable `MainActivity` at lines 69-76 is the same code |
| JavaText.IndexFrom | Application/src/main/java/com/araujo/jordan/wearrow/MainActivity.java:259 | the separator search finds an occurrence with none before it, and reports none only when there is none |
| JavaText.FirstOccurrence | Application/src/main/java/com/araujo/jordan/wearrow/MainActivity.java:259 | an occurrence with no earlier character starting the separator is the first |
| JavaText.NoOccurrence | Application/src/main/java/com/araujo/jordan/wearrow/MainActivity.java:259 | text without the separator's first character has no occurrence |
| JavaText.PrefixBeforeFirst | Application/src/main/java/com/araujo/jordan/wearrow/MainActivity.java:259 | a prefix ending before the first occurrence contains no separator |
| JavaText.CutAtFirst | Application/src/main/java/com/araujo/jordan/wearrow/MainActivity.java:259 | in a + sep + b with no separator start in a, the first cut is at a's end: before it is a, after it is b |
| JavaText.UpToWithout | Application/src/main/java/com/araujo/jordan/wearrow/MainActivity.java:259 | text without a separator start is its own first piece |
| JavaText.UpToThenUpTo | Application/src/main/java/com/araujo/jordan/wearrow/MainActivity.java:259 | cutting p + c + y at a separator and then at the one-character c gives p when p holds neither |
| JavaText.SplitAll | Application/src/main/java/com/araujo/jordan/wearrow/MainActivity.java:259 | there is at least one piece; the first is the text up to the first separator, the second is what follows up to the next one, and no piece contains the separator |
| JavaText.JoinSplitAll | Application/src/main/java/com/araujo/jordan/wearrow/MainActivity.java:259 | joining the pieces with the separator gives back the text, so cutting loses nothing |
| JavaText.DropTrailingEmpty | Application/src/main/java/com/araujo/jordan/wearrow/MainActivity.java:259 | the result is a prefix of the pieces, only empty pieces are dropped, and the last piece kept is not empty |
| JavaText.SplitIsTrimmedPieces | Application/src/main/java/com/araujo/jordan/wearrow/MainActivity.java:259 | `split` (`JavaText.Split`) with no match gives the whole text; otherwise it gives the pieces without their trailing empty strings |
| JavaText.SplitKeepsNonEmpty | Application/src/main/java/com/araujo/jordan/wearrow/MainActivity.java:259 | a non-empty piece is kept by `split` (`JavaText.Split`) at the same index |
| JavaText.SplitFirstPiece | Application/src/main/java/com/araujo/jordan/wearrow/MainActivity.java:259 | the first element of `split`, when there is one, is the text up to the first separator |
| JavaText.SecondPieceHeadIs | Application/src/main/java/com/araujo/jordan/wearrow/MainActivity.java:259-260 | `s.split(sep1)[1].split(sep2)[0]` throws when sep1 is absent; otherwise any token it yields is the text after the first sep1, up to the next sep1, then up to sep2, and a non-empty such text is always yielded |
| JavaText.SecondPieceHeadOf | Application/src/main/java/com/araujo/jordan/wearrow/MainActivity.java:259-260 | in A sep1 P c Y, with no sep1 start in A or P and no c in P, the token is P |
| HandheldMain.LatitudeTokenIs | Application/src/main/java/com/araujo/jordan/wearrow/MainActivity.java:259 | the latitude text (`LatitudeToken`) is what follows the first "loc:", cut at the next "loc:" and then at the first comma; without "loc:" the index is out of bounds |
| HandheldMain.LongitudeTokenIs | Application/src/main/java/com/araujo/jordan/wearrow/MainActivity.java:260 | the longitude text (`LongitudeToken`) is what follows the first comma of the whole query, not of the part after "loc:", cut at the next comma and then at the first space |
| HandheldMain.LatitudeAfterMarker | Application/src/main/java/com/araujo/jordan/wearrow/MainActivity.java:259 | in "A loc:LAT,REST" with no 'l' in A and no comma or 'l' in LAT, the latitude text is LAT |
| HandheldMain.LongitudeAfterFirstComma | Application/src/main/java/com/araujo/jordan/wearrow/MainActivity.java:260 | in "H,LON REST" with no comma in H, the longitude text is LON wherever "loc:" stands |
| HandheldMain.WellFormedQuery | Application/src/main/java/com/araujo/jordan/wearrow/MainActivity.java:259-260 | a query "A loc:LAT,LON REST" yields LAT and LON as the two texts to parse |
| HandheldMain.GeoIntentGivesDestination | Application/src/main/java/com/araujo/jordan/wearrow/MainActivity.java:249-272 | a `geo:` VIEW intent with query "A loc:LAT,LON REST", where LAT parses to x and LON to y, gives the destination (x, y) whatever the host |
| HandheldMain.CommaBeforeMarker | Application/src/main/java/com/araujo/jordan/wearrow/MainActivity.java:260 | a comma before "loc:" moves the longitude: "A,B loc:LAT,REST" yields LAT as latitude but B as longitude |
| HandheldMain.PointLocation | Application/src/main/java/com/araujo/jordan/wearrow/MainActivity.java:252-267 | a destination is produced exactly for a VIEW intent whose URI has a scheme, the `geo` scheme or the maps.google.com host, and a query from which both texts (`LatitudeToken`, `LongitudeToken`) parse, and it is what they parse to; another action is IllegalArgumentException, a null action, a null URI or a null scheme NullPointerException |
| HandheldMain.PointLocationFromIntent | Application/src/main/java/com/araujo/jordan/wearrow/MainActivity.java:249-272 | any exception in the `try` block gives (0,0); otherwise the extracted destination |
| HandheldMain.FallsBackToOrigin | Application/src/main/java/com/araujo/jordan/wearrow/MainActivity.java:250-271 | the wrong action, no data, neither `geo` nor maps.google.com, or a query without "loc:" or without a comma all give (0,0) |
| HandheldMain.StartActivityPayload | Application/src/main/java/com/araujo/jordan/wearrow/MainActivity.java:185-192 | the start-activity payload is exactly the 16-byte encoding of the destination's [latitude, longitude] |
| Display.MlOrKm | Application/src/main/java/com/araujo/jordan/wearrow/RotationArrow.java:101-119 | below 1 km: "too close" when ⌊1000·d⌋ < 5, otherwise ⌊1000·d⌋ meters; from 1 km: ⌊d⌋ km; never the loading label (the wearable's copy at WearRotationArrow.java:107-125 is the same) |
| Display.DistanceScreen | Application/src/main/java/com/araujo/jordan/wearrow/RotationArrow.java:79-98 | the loading label with the arrow hidden exactly when either point is (0,0); otherwise the distance label, the arrow hidden again only when too close (the wearable's copy at WearRotationArrow.java:85-105 is the same) |
| Display.NormaliseAngle | Application/src/main/java/com/araujo/jordan/wearrow/RotationArrow.java:138-146 | a non-negative angle is kept and a negative one moved up by 360, so an `atan2` angle in [-180, 180] lands in [0, 360) (the wearable's copy at WearRotationArrow.java:144-152 is the same) |
| Sensors.SensorListener.constructor | Application/src/main/java/com/araujo/jordan/wearrow/RotationArrow.java:466-471 | a new orientation listener is not running and registered for nothing |
| Sensors.SensorListener.StopUsingGiro | Application/src/main/java/com/araujo/jordan/wearrow/RotationArrow.java:504-510 | afterwards the listener is stopped and unregistered; when it was not running nothing changes, so stopping twice is stopping once (the wearable's copy at WearRotationArrow.java:369-375 is the same) |
| Sensors.SensorListener.StartUsingGiro | Application/src/main/java/com/araujo/jordan/wearrow/RotationArrow.java:512-520 | afterwards the listener is running and registered for exactly the magnetic field and accelerometer sensors (the wearable's copy at WearRotationArrow.java:377-385 is the same) |
| Handheld.IsSameProvider | Application/src/main/java/com/araujo/jordan/wearrow/RotationArrow.java:404-409 | null matches only null, otherwise provider names must be equal |
| Handheld.IsBetterLocation | Application/src/main/java/com/araujo/jordan/wearrow/RotationArrow.java:369-402 | with no current fix anything is better, even null; with one, null never is; more than 2 minutes newer always wins and more than 2 minutes older always loses; inside the window, more accurate wins, not newer and not more accurate loses, newer and not less accurate wins, newer but more than 200 less accurate loses, and newer and up to 200 less accurate wins exactly when from the same provider |
| Handheld.SameFixNotBetter | Application/src/main/java/com/araujo/jordan/wearrow/RotationArrow.java:369-402 | a fix is not better than itself |
| Handheld.AcceptedFixNotMuchOlder | Application/src/main/java/com/araujo/jordan/wearrow/RotationArrow.java:377-386 | an accepted reading is never more than two minutes older than the fix it replaces |
| Handheld.ProviderRequests | Application/src/main/java/com/araujo/jordan/wearrow/RotationArrow.java:226-237 | GPS is requested when enabled, the network provider when enabled, and the passive provider only when enabled and the network provider is not |
| Handheld.LocationListener.constructor | Application/src/main/java/com/araujo/jordan/wearrow/RotationArrow.java:169-182 | a new location listener is not running, has no fix and requests nothing |
| Handheld.NoFixShowsLoading | Application/src/main/java/com/araujo/jordan/wearrow/RotationArrow.java:245-260 | without a fix the listener's `Latitude`/`Longitude` are the unknown position (0,0), so the distance screen built from them (RotationArrow.java:80-84) shows the loading label with the arrow hidden |
| Handheld.LocationListener.StartUsingGPS | Application/src/main/java/com/araujo/jordan/wearrow/RotationArrow.java:221-240 | the listener runs, the enabled providers are added to the requests, and the "no GPS" toast is shown exactly when neither the network nor the passive provider is enabled |
| Handheld.LocationListener.StopUsingGPS | Application/src/main/java/com/araujo/jordan/wearrow/RotationArrow.java:187-219 | afterwards the listener is stopped with no requests and the fix kept; the loop sending the stop message over the nodes known at that moment is entered exactly when it was running and the client is connected (it sends nothing while no node is known yet) |
| Handheld.RotationArrow.constructor | Application/src/main/java/com/araujo/jordan/wearrow/RotationArrow.java:49-59 | a new arrow has its destination, the user at (0,0) and both listeners stopped |
| Handheld.RotationArrow.Start | Application/src/main/java/com/araujo/jordan/wearrow/RotationArrow.java:61-64 | both listeners run afterwards, with the location listener's requests and toast as for `startUsingGPS` |
| Handheld.RotationArrow.Stop | Application/src/main/java/com/araujo/jordan/wearrow/RotationArrow.java:66-69 | both listeners are stopped and unregistered afterwards, and the stop signal is sent as for `stopUsingGPS` |
| Handheld.RotationArrow.OnLocationChanged | Application/src/main/java/com/araujo/jordan/wearrow/RotationArrow.java:266-300 | the fix and user position change exactly when the reading is better; the user position is then the new fix, a null reading accepted without a current fix ends in NullPointerException, and otherwise the 16-byte encoding of the fix is relayed exactly when the client is connected |
| Wearable.NewPointProperties | Wearable/src/main/java/com/araujo/jordan/wearrow/WearRotationArrow.java:283-284 | the "new point" test (`IsNewPoint`) never fires for a point compared with itself unless it holds a NaN, always fires on a NaN, ignores the sign of zero, and is symmetric |
| Wearable.WearLocationListener.constructor | Wearable/src/main/java/com/araujo/jordan/wearrow/WearRotationArrow.java:169-176 | a new listener is connected, not running, not executed, and has no point yet |
| Wearable.WearLocationListener.StopUsingGPS | Wearable/src/main/java/com/araujo/jordan/wearrow/WearRotationArrow.java:181-191 | afterwards the listener is not running; when it was not running nothing changes, otherwise the client is disconnected |
| Wearable.WearLocationListener.StartUsingGPS | Wearable/src/main/java/com/araujo/jordan/wearrow/WearRotationArrow.java:196-204 | a toggle: when running it stops and disconnects without restarting; otherwise it runs, and executing the background task a second time throws IllegalStateException |
| Wearable.WearRotationArrow.constructor | Wearable/src/main/java/com/araujo/jordan/wearrow/WearRotationArrow.java:52-63 | a not-running arrow with fresh, stopped listeners, the location listener connected and its task never executed, and the user at (0,0) |
| Wearable.WearRotationArrow.Start | Wearable/src/main/java/com/araujo/jordan/wearrow/WearRotationArrow.java:65-69 | the flag is set and the location listener toggled: a running one is stopped and disconnected, a stopped one starts and throws IllegalStateException exactly when its task ran before; the task counts as executed afterwards; the sensors start unless it threw |
| Wearable.WearRotationArrow.Stop | Wearable/src/main/java/com/araujo/jordan/wearrow/WearRotationArrow.java:71-75 | the arrow and both listeners are stopped afterwards, the client disconnected when the location listener was running, the user's point and its coordinates kept |
| Wearable.WearRotationArrow.UpdateLocation | Wearable/src/main/java/com/araujo/jordan/wearrow/WearRotationArrow.java:272-286 | fewer than two values throw before anything changes, the user's point and its coordinates included; otherwise the user's position is the received (lat, lon), held in the listener's stored point, which the first call creates and later calls overwrite in place, so the user's point is that same object; it is published exactly when it differs from the destination |
| Wearable.WearRotationArrow.OnMessageReceived | Wearable/src/main/java/com/araujo/jordan/wearrow/WearRotationArrow.java:261-270 | the position path decodes the data and updates the user's position, which is then the listener's stored point (the same object as before when one existed), leaving the listeners' flags and connection as they were; the stop path stops the arrow and both listeners, disconnecting a running location listener and keeping the stored point; fewer than two decoded values, the stop path and any other path all leave the user's point and its coordinates as they were; any other path changes nothing |
| Wearable.RelayedFixArrives | Wearable/src/main/java/com/araujo/jordan/wearrow/WearRotationArrow.java:263-264 | the message the handheld sends for a fix decodes to exactly that fix's latitude and longitude |
| WearMain.LocationFromExtra | Wearable/src/main/java/com/araujo/jordan/wearrow/MainActivity.java:60-67 | no extra gives no destination; fewer than 16 bytes throw ArrayIndexOutOfBoundsException; otherwise the destination is the first two 8-byte slots |
| WearMain.GetLocationFromIntent | Wearable/src/main/java/com/araujo/jordan/wearrow/MainActivity.java:60-67 | the method decoding the extra with `toDoubleArray` gives the same result |
| WearMain.SetUpArrow | Wearable/src/main/java/com/araujo/jordan/wearrow/MainActivity.java:41-42 | building and starting a new arrow never throws: afterwards the arrow, its location listener and both sensors run, the user at (0,0) |
| WearMain.StartActivityRoundTrip | Wearable/src/main/java/com/araujo/jordan/wearrow/MainActivity.java:63-64 | the payload the handheld sends to start the activity gives back its destination bit for bit |

## Left out

- Haversine trigonometry (`sin`, `cos`, `atan2`, `sqrt`) and `deg2rad` are floating-point numerics. The distance enters `Display.DistanceScreen` as an abstract real, and the `atan2` angle enters `Display.NormaliseAngle` as one.
- The rotation matrix, the azimuth and the +30 degree offset of the arrow are floating-point numerics too.
- Display.MlOrKm: the distance is an exact real, so double rounding of `d * 1000` is not modelled; a NaN distance is not modelled either.
- Display.NormaliseAngle: the angle is an exact real, so the double arithmetic of `180 + (180 + result)` and the `(float)` cast are not modelled; in doubles a `result` in about (-2.8e-14, 0) gives exactly 360.0, so the upper bound 360 is strict only over the reals.
- Common.DoubleToInt: `(int)` of a NaN gives 0 in Java; the cast is modelled over reals, and NaN accuracies are not modelled.
- Handheld.IsBetterLocation: the time delta is an unbounded integer, so `long` overflow of `newLoc.getTime() - oldLoc.getTime()` is not modelled.
- Handheld.IsBetterLocation: accuracies are exact reals, so the `float` rounding of `newLoc.getAccuracy() - oldLoc.getAccuracy()` before the `(int)` cast is not modelled. For a new accuracy of 251.0f and an old one of 50.000004f, same provider and one second newer, Java rounds the difference to 201.0f, gets a delta of 201 and rejects the fix; the model's delta is 200 and it accepts.
- Payload.ToByteArray: `doubleArray.length * 8` cannot overflow `int` in the model; arrays of more than 2^28 doubles are not modelled as Java would handle them.
- `Double.valueOf` is the parameter `parse` of `HandheldMain.PointLocation`. `None` stands for NumberFormatException. Its grammar is not modelled.
- How Android splits a URI string into scheme, host and query is not modelled. The intent's action and `Uri` parts are inputs, and each may be null.
- `String.split` is modelled for plain-text separators only. "loc:", ",", and " " contain no regular-expression characters.
- Play-services calls are not modelled: `connect`, listener registration in `onConnected`, `sendMessage`, and `getConnectedNodes`. Whether the client is connected is an input. A relayed payload is returned instead of sent.
- Threads are not modelled:
  - the `getNodes` thread racing on `nodesid`;
  - the retry loop that waits for nodes before `sendPosition`;
  - `onStartWearableActivity`'s thread;
  - the `wait()` loop in `doInBackground` and its `onPostExecute`;
  - the wearable watchdog thread that calls `finish()`.
- `publishProgress` is modelled as a returned point. Its later delivery in `onProgressUpdate`, which stores the same point as the user position, is not modelled.
- `onDataChanged` only logs.
- `onProviderDisabled` only calls `stopUsingGPS`, which is `Handheld.LocationListener.StopUsingGPS`.
- Views, toasts and logging are not modelled. Arrow visibility is the `arrowVisible` flag of `Display.Screen`. The label text refreshed in `onLocationChanged` is not part of `Handheld.RotationArrow.OnLocationChanged`, because `Display.DistanceScreen` states it.
- The identical copies in the sources are modelled once each:
  - `toByteArray` on the handheld and in its `MainActivity`;
  - `toDoubleArray` in `WearRotationArrow` and the wearable `MainActivity`;
  - `getMlOrKm`, `getDistanceBetween2Points` and `getAngleBetween2Points` on both devices;
  - the two `JSensorEventListener` classes.
- WearMain.LocationFromExtra: the extra is taken to be a byte array when present. A `location` extra of another type, for which `getByteArray` returns null, is not modelled.
- LatLng.java is not part of this model. Its fields are taken to be the public `latitude` and `longitude` that the code reads and writes.
- LolipopFeatures.java (window styling) and DataLayerListenerService.java (which only forwards an intent) are platform wrappers and are not modelled.

=== FILE: common.dfy ===
/**
 * Values shared by the handheld and the wearable side: optional values and
 * results standing for Java's null and exceptions, the 64-bit pattern of a
 * Java double, the comparisons Java performs on doubles, and Java's cast
 * from a floating-point value to an int.
 */
module Common {

  datatype Option<+T> = None | Some(value: T)

  /** The Java exceptions that the modelled code can raise. */
  datatype Failure =
    | NullPointer            // a method called on a null reference
    | IndexOutOfBounds       // an array index past the end
    | NumberFormat           // Double.valueOf on text that is not a number
    | IllegalArgument        // thrown on purpose when the intent carries no geo point
    | IllegalState           // an AsyncTask executed a second time

  datatype Result<+T> = Ok(value: T) | Err(failure: Failure)

  /** A Java double, kept as its IEEE 754 binary64 bit pattern. */
  type Double = bv64

  /** A Java byte, kept as its 8-bit pattern. */
  type Byte = bv8

  /** +0.0 */
  const POSITIVE_ZERO: Double := 0
  /** -0.0: only the sign bit set */
  const NEGATIVE_ZERO: Double := 0x8000_0000_0000_0000

  const EXPONENT_MASK: Double := 0x7FF0_0000_0000_0000
  const FRACTION_MASK: Double := 0x000F_FFFF_FFFF_FFFF
  const MAGNITUDE_MASK: Double := 0x7FFF_FFFF_FFFF_FFFF

  /** A NaN has every exponent bit set and a non-zero fraction. */
  predicate IsNaN(x: Double) {
    x & EXPONENT_MASK == EXPONENT_MASK && x & FRACTION_MASK != 0
  }

  /**
   * Java's `==` on two doubles: a NaN equals nothing, not even itself,
   * the two zeros are equal, and otherwise equal numbers have equal patterns.
   */
  predicate DoubleEquals(x: Double, y: Double)
  {
    !IsNaN(x) && !IsNaN(y) && (x == y || (x & MAGNITUDE_MASK == 0 && y & MAGNITUDE_MASK == 0))
  }

  /** Java's `d == 0` for a double `d`. */
  predicate IsZero(x: Double)
    ensures IsZero(x) <==> x == POSITIVE_ZERO || x == NEGATIVE_ZERO
  {
    DoubleEquals(x, POSITIVE_ZERO)
  }

  /** A latitude/longitude pair as a value (the fields of a LatLng object). */
  datatype Coord = Coord(latitude: Double, longitude: Double)

  /** `new LatLng(0, 0)`: the "position not known yet" marker. */
  const ORIGIN: Coord := Coord(POSITIVE_ZERO, POSITIVE_ZERO)

  /** Java's test `p.latitude == 0 && p.longitude == 0`. */
  predicate IsUnknown(p: Coord) {
    IsZero(p.latitude) && IsZero(p.longitude)
  }

  /**
   * Java's `==` on doubles is symmetric, never holds for a NaN, and holds of
   * every other value and itself; -0.0 stands for the unknown position too.
   */
  lemma DoubleEqualsProperties(x: Double, y: Double)
    ensures DoubleEquals(x, y) ==> !IsNaN(x) && !IsNaN(y)
    ensures DoubleEquals(x, y) == DoubleEquals(y, x)
    ensures DoubleEquals(x, x) <==> !IsNaN(x)
    ensures IsUnknown(ORIGIN) && IsUnknown(Coord(NEGATIVE_ZERO, NEGATIVE_ZERO))
  {
  }

  const INT_MIN: int := -0x8000_0000
  const INT_MAX: int := 0x7FFF_FFFF

  /**
   * Java's narrowing cast `(int) x` of a float or double, on its exact real
   * value: rounds toward zero and saturates at the bounds of int.
   */
  function DoubleToInt(x: real): (n: int)
    ensures INT_MIN <= n <= INT_MAX
    ensures x >= 0.0 ==> 0 <= n && n as real <= x
    ensures x <= 0.0 ==> n <= 0 && x <= n as real
    ensures INT_MIN as real < x < INT_MAX as real ==> -1.0 < x - n as real < 1.0
    ensures 0.0 <= x < INT_MAX as real ==> n == x.Floor
    ensures x >= INT_MAX as real ==> n == INT_MAX
    ensures x <= INT_MIN as real ==> n == INT_MIN
  {
    if x >= INT_MAX as real then INT_MAX
    else if x <= INT_MIN as real then INT_MIN
    else if x >= 0.0 then x.Floor
    else -((-x).Floor)
  }
}

=== FILE: display.dfy ===
/**
 * What the arrow screen shows, on both devices: the distance label chosen by
 * `getMlOrKm`, the "loading" label while either endpoint is the unknown
 * position (0,0), and the bearing normalised into [0, 360).
 *
 * The great-circle distance (haversine) and `atan2` are floating-point
 * numerics and enter here as abstract real inputs.
 */
module Display {
  import opened Common

  /** The label shown below the arrow; the strings themselves are resources. */
  datatype Label =
    | Loading              // R.string.loading
    | TooClose             // R.string.distanceToClose
    | Meters(m: int)       // distance + " " + R.string.meter
    | Kilometers(km: int)  // (int) d + " " + R.string.kilometer

  /** The label and whether the arrow image is left visible. */
  datatype Screen = Screen(caption: Label, arrowVisible: bool)

  /** `CLOSE_DISTANCE`, in meters. */
  const CLOSE_DISTANCE: int := 5

  /** `getMlOrKm(d)`, for a distance `d` in kilometers. */
  function MlOrKm(d: real): (r: Label)
    ensures r != Loading
    ensures 0.0 <= d < 1.0 && (1000.0 * d).Floor < CLOSE_DISTANCE ==> r == TooClose
    ensures 0.0 <= d < 1.0 && (1000.0 * d).Floor >= CLOSE_DISTANCE ==>
              r == Meters((1000.0 * d).Floor) && CLOSE_DISTANCE <= r.m < 1000
    ensures 1.0 <= d < INT_MAX as real ==> r == Kilometers(d.Floor) && 1 <= r.km
    ensures d < 0.0 ==> r == TooClose
  {
    if d < 1.0 then
      var distance := DoubleToInt(d * 1000.0);
      if distance < CLOSE_DISTANCE then TooClose else Meters(distance)
    else
      Kilometers(DoubleToInt(d))
  }

  /**
   * `getDistanceBetween2Points(p1, p2)` where `haversineKm` is the distance
   * the formula computes for the two points: "loading" with the arrow hidden
   * while either point is (0,0); otherwise the arrow is shown and the label
   * is `getMlOrKm`, which hides the arrow again when too close.
   */
  function DistanceScreen(p1: Coord, p2: Coord, haversineKm: real): (r: Screen)
    ensures r.caption == Loading <==> IsUnknown(p1) || IsUnknown(p2)
    ensures r.caption == Loading ==> !r.arrowVisible
    ensures r.caption != Loading ==> r.caption == MlOrKm(haversineKm)
    ensures r.arrowVisible <==> r.caption != Loading && r.caption != TooClose
  {
    if IsUnknown(p1) || IsUnknown(p2) then Screen(Loading, false)
    else
      var shown := MlOrKm(haversineKm);
      Screen(shown, shown != TooClose)
  }

  /**
   * The normalisation at the end of `getAngleBetween2Points`, where `result`
   * is `atan2(deltaY, deltaX)` in degrees: a negative angle is turned into
   * the same direction measured from 0 upwards.
   */
  function NormaliseAngle(result: real): (r: real)
    ensures result < 0.0 ==> r == result + 360.0
    ensures result >= 0.0 ==> r == result
    ensures -180.0 <= result <= 180.0 ==> 0.0 <= r < 360.0
  {
    if result < 0.0 then 180.0 + (180.0 + result) else result
  }
}

=== FILE: handheld.dfy ===
/**
 * The handheld's `RotationArrow`: the rule that decides whether a new
 * location fix replaces the current one, the location listener's running
 * flag and provider requests, and the relay of each accepted fix to the
 * wearable as a two-double payload.
 */
module Handheld {
  import opened Common
  import Display
  import Payload
  import Sensors

  /** The location providers the listener may ask for updates from. */
  datatype Provider = GpsProvider | NetworkProvider | PassiveProvider

  /**
   * The parts of an `android.location.Location` that are read here:
   * coordinates, the fix time in milliseconds, the accuracy radius in
   * meters (a float) and the provider name, which may be null.
   */
  datatype Location = Location(
    latitude: Double, longitude: Double, time: int, accuracy: real, provider: Option<string>)

  /** `TWO_MINUTES`, in milliseconds. */
  const TWO_MINUTES: int := 1000 * 60 * 2
  /** An accuracy delta above this is "significantly less accurate". */
  const SIGNIFICANT_ACCURACY_LOSS: int := 200

  /** `isSameProvider`: null-safe equality of provider names. */
  function IsSameProvider(provider1: Option<string>, provider2: Option<string>): (r: bool)
    ensures r <==> provider1 == provider2
  {
    match provider1
    case None => provider2.None?
    case Some(name) => provider2.Some? && name == provider2.value
  }

  /** `newLoc.getTime() - oldLoc.getTime()` */
  function TimeDelta(newLoc: Location, oldLoc: Location): int {
    newLoc.time - oldLoc.time
  }

  /** `(int) (newLoc.getAccuracy() - oldLoc.getAccuracy())` */
  function AccuracyDelta(newLoc: Location, oldLoc: Location): int {
    DoubleToInt(newLoc.accuracy - oldLoc.accuracy)
  }

  /**
   * `isBetterLocation(newLoc, oldLoc)`, null being `None`. Its postconditions
   * give the rule case by case; together they cover every input.
   */
  function IsBetterLocation(newLoc: Option<Location>, oldLoc: Option<Location>): (r: bool)
    // no current fix: anything is better, even a null reading
    ensures oldLoc.None? ==> r
    // a null reading never replaces a current fix
    ensures oldLoc.Some? && newLoc.None? ==> !r
    // outside the two-minute window only the age counts
    ensures oldLoc.Some? && newLoc.Some? && TimeDelta(newLoc.value, oldLoc.value) > TWO_MINUTES ==> r
    ensures oldLoc.Some? && newLoc.Some? && TimeDelta(newLoc.value, oldLoc.value) < -TWO_MINUTES ==> !r
    // inside the window: more accurate wins
    ensures oldLoc.Some? && newLoc.Some? ==>
              var td, ad := TimeDelta(newLoc.value, oldLoc.value), AccuracyDelta(newLoc.value, oldLoc.value);
              (-TWO_MINUTES <= td <= TWO_MINUTES && ad < 0 ==> r) &&
              // not newer and not more accurate loses
              (-TWO_MINUTES <= td <= 0 && ad >= 0 ==> !r) &&
              // newer and at least as accurate wins
              (0 < td <= TWO_MINUTES && ad <= 0 ==> r) &&
              // newer but much less accurate loses
              (0 < td <= TWO_MINUTES && ad > SIGNIFICANT_ACCURACY_LOSS ==> !r) &&
              // newer and slightly less accurate wins exactly when from the same provider
              (0 < td <= TWO_MINUTES && 0 < ad <= SIGNIFICANT_ACCURACY_LOSS ==>
                 (r <==> newLoc.value.provider == oldLoc.value.provider))
  {
    if oldLoc.None? then true
    else if newLoc.None? then false
    else
      var timeDelta := TimeDelta(newLoc.value, oldLoc.value);
      var isSignificantlyNewer := timeDelta > TWO_MINUTES;
      var isSignificantlyOlder := timeDelta < -TWO_MINUTES;
      var isNewer := timeDelta > 0;
      if isSignificantlyNewer then true
      else if isSignificantlyOlder then false
      else
        var accuracyDelta := AccuracyDelta(newLoc.value, oldLoc.value);
        var isLessAccurate := accuracyDelta > 0;
        var isMoreAccurate := accuracyDelta < 0;
        var isSignificantlyLessAccurate := accuracyDelta > SIGNIFICANT_ACCURACY_LOSS;
        var isFromSameProvider := IsSameProvider(newLoc.value.provider, oldLoc.value.provider);
        if isMoreAccurate then true
        else if isNewer && !isLessAccurate then true
        else if isNewer && !isSignificantlyLessAccurate && isFromSameProvider then true
        else false
  }

  /** A fix offered again is not better than itself, so a repeated reading changes nothing. */
  lemma SameFixNotBetter(loc: Location)
    ensures !IsBetterLocation(Some(loc), Some(loc))
  {
  }

  /**
   * The rule never accepts a reading more than two minutes older than the
   * current fix, so a replaced fix is at most two minutes older than the one
   * it replaces.
   */
  lemma AcceptedFixNotMuchOlder(newLoc: Location, oldLoc: Location)
    requires IsBetterLocation(Some(newLoc), Some(oldLoc))
    ensures newLoc.time >= oldLoc.time - TWO_MINUTES
  {
  }

  /**
   * The providers `startUsingGPS` asks for updates from: GPS when enabled,
   * then the network provider when enabled, and only otherwise the passive one.
   */
  function ProviderRequests(gpsEnabled: bool, networkEnabled: bool, passiveEnabled: bool): (r: set<Provider>)
    ensures GpsProvider in r <==> gpsEnabled
    ensures NetworkProvider in r <==> networkEnabled
    ensures PassiveProvider in r <==> passiveEnabled && !networkEnabled
  {
    (if gpsEnabled then {GpsProvider} else {}) +
    (if networkEnabled then {NetworkProvider} else if passiveEnabled then {PassiveProvider} else {})
  }

  /** `JLocationListener`: the running flag, the current fix and the requested providers. */
  class LocationListener {
    var isRunning: bool
    /** `location`, the current best fix; `None` until one is accepted. */
    var location: Option<Location>
    /** The providers the location manager is delivering updates from. */
    var requested: set<Provider>

    /** A listener that is not running receives no updates. */
    ghost predicate Valid()
      reads this
    {
      !isRunning ==> requested == {}
    }

    constructor ()
      ensures Valid() && !isRunning && location.None? && requested == {}
    {
      isRunning := false;
      location := None;
      requested := {};
    }

    /** `getLatitude`: 0.0 while there is no fix. */
    function Latitude(): (r: Double)
      reads this
      ensures location.None? ==> r == POSITIVE_ZERO
      ensures location.Some? ==> r == location.value.latitude
    {
      if location.Some? then location.value.latitude else POSITIVE_ZERO
    }

    /** `getLongitude`: 0.0 while there is no fix. */
    function Longitude(): (r: Double)
      reads this
      ensures location.None? ==> r == POSITIVE_ZERO
      ensures location.Some? ==> r == location.value.longitude
    {
      if location.Some? then location.value.longitude else POSITIVE_ZERO
    }

    /**
     * `startUsingGPS`: sets the flag, asks for updates from the enabled
     * providers, and reports whether the "no GPS found" toast is shown,
     * which happens when neither the network nor the passive provider is
     * enabled, even if GPS is.
     */
    method StartUsingGPS(gpsEnabled: bool, networkEnabled: bool, passiveEnabled: bool)
      returns (noProviderToast: bool)
      requires Valid()
      modifies this
      ensures Valid() && isRunning && location == old(location)
      ensures requested == old(requested) + ProviderRequests(gpsEnabled, networkEnabled, passiveEnabled)
      ensures noProviderToast <==> !networkEnabled && !passiveEnabled
    {
      isRunning := true;
      if gpsEnabled {
        requested := requested + {GpsProvider};
      }
      if networkEnabled {
        requested := requested + {NetworkProvider};
        return false;
      }
      if passiveEnabled {
        requested := requested + {PassiveProvider};
        return false;
      }
      noProviderToast := true;
    }

    /**
     * `stopUsingGPS`: nothing when not running; otherwise removes the
     * updates, clears the flag, and signals the wearable to stop when the
     * API client is connected.
     */
    method StopUsingGPS(connected: bool) returns (stopSignalled: bool)
      requires Valid()
      modifies this
      ensures Valid() && !isRunning && requested == {} && location == old(location)
      ensures stopSignalled <==> old(isRunning) && connected
    {
      if !isRunning {
        return false;
      }
      requested := {};
      isRunning := false;
      stopSignalled := connected;
    }
  }

  /**
   * Without a fix the listener reports the unknown position (0,0), so an
   * arrow whose user position is read from it shows the loading label with
   * the arrow hidden, whatever the destination and the distance.
   */
  lemma NoFixShowsLoading(gps: LocationListener, destination: Coord, haversineKm: real)
    requires gps.location.None?
    ensures IsUnknown(Coord(gps.Latitude(), gps.Longitude()))
    ensures Display.DistanceScreen(Coord(gps.Latitude(), gps.Longitude()), destination, haversineKm)
              == Display.Screen(Display.Loading, false)
  {
  }

  /** `RotationArrow` on the handheld. */
  class RotationArrow {
    /** `destinationLocation`, fixed at construction. */
    const destination: Coord
    /** `userLocation`: (0,0) until a fix is accepted. */
    var userLocation: Coord
    const gps: LocationListener
    const giro: Sensors.SensorListener

    ghost predicate Valid()
      reads this, gps, giro
    {
      gps.Valid() && giro.Valid()
    }

    constructor (destination: Coord)
      ensures Valid() && fresh(gps) && fresh(giro)
      ensures this.destination == destination && userLocation == ORIGIN
      ensures !gps.isRunning && gps.location.None? && !giro.isRunning
    {
      this.destination := destination;
      gps := new LocationListener();
      giro := new Sensors.SensorListener();
      userLocation := ORIGIN;
    }

    /** `start`: the location listener, then the orientation listener. */
    method Start(gpsEnabled: bool, networkEnabled: bool, passiveEnabled: bool)
      returns (noProviderToast: bool)
      requires Valid()
      modifies gps, giro
      ensures Valid() && gps.isRunning && giro.isRunning
      ensures gps.location == old(gps.location)
      ensures gps.requested == old(gps.requested) + ProviderRequests(gpsEnabled, networkEnabled, passiveEnabled)
      ensures noProviderToast <==> !networkEnabled && !passiveEnabled
    {
      noProviderToast := gps.StartUsingGPS(gpsEnabled, networkEnabled, passiveEnabled);
      giro.StartUsingGiro();
    }

    /** `stop`: the orientation listener, then the location listener. */
    method Stop(connected: bool) returns (stopSignalled: bool)
      requires Valid()
      modifies gps, giro
      ensures Valid() && !gps.isRunning && !giro.isRunning
      ensures gps.requested == {} && giro.registered == {} && gps.location == old(gps.location)
      ensures stopSignalled <==> old(gps.isRunning) && connected
    {
      giro.StopUsingGiro();
      stopSignalled := gps.StopUsingGPS(connected);
    }

    /**
     * `onLocationChanged`: when the reading is better than the current fix it
     * becomes the fix and `userLocation` is rebuilt from it (0,0 for a null
     * fix); when the API client is connected the reading's (latitude,
     * longitude) is relayed as a 16-byte payload. A null reading accepted
     * because there was no fix yet makes Java throw NullPointerException
     * when it reads the reading's coordinates for the relay.
     */
    method OnLocationChanged(newLocation: Option<Location>, connected: bool)
      returns (r: Result<Option<seq<Byte>>>)
      requires Valid()
      modifies this, gps
      ensures Valid()
      ensures gps.isRunning == old(gps.isRunning) && gps.requested == old(gps.requested)
      ensures !IsBetterLocation(newLocation, old(gps.location)) ==>
                gps.location == old(gps.location) && userLocation == old(userLocation) && r == Ok(None)
      ensures IsBetterLocation(newLocation, old(gps.location)) ==>
                gps.location == newLocation && userLocation == Coord(gps.Latitude(), gps.Longitude())
      ensures IsBetterLocation(newLocation, old(gps.location)) && newLocation.None? ==>
                userLocation == ORIGIN && r == Err(NullPointer)
      ensures IsBetterLocation(newLocation, old(gps.location)) && newLocation.Some? ==>
                userLocation == Coord(newLocation.value.latitude, newLocation.value.longitude) &&
                r == Ok(if connected
                        then Some(Payload.Encode([newLocation.value.latitude, newLocation.value.longitude]))
                        else None)
    {
      if !IsBetterLocation(newLocation, gps.location) {
        return Ok(None);
      }
      gps.location := newLocation;
      userLocation := Coord(gps.Latitude(), gps.Longitude());
      if newLocation.None? {
        return Err(NullPointer);
      }
      var position := new Double[2];
      position[0] := newLocation.value.latitude;
      position[1] := newLocation.value.longitude;
      if !connected {
        return Ok(None);
      }
      var bytes := Payload.ToByteArray(position);
      assert position[..] == [newLocation.value.latitude, newLocation.value.longitude];
      r := Ok(Some(bytes[..]));
    }
  }
}

=== FILE: handheld_main.dfy ===
/**
 * The handheld's `MainActivity`: the destination read from the map URI the
 * activity was opened with, falling back to (0,0) on any failure, and the
 * payload of the message that starts the wearable's activity.
 */
module HandheldMain {
  import opened Common
  import opened JavaText
  import Payload

  /** `Intent.ACTION_VIEW` */
  const ACTION_VIEW: string := "android.intent.action.VIEW"
  const GEO_SCHEME: string := "geo"
  const MAPS_HOST: string := "maps.google.com"
  /** The marker in front of the latitude in the query. */
  const LOC_MARKER: string := "loc:"

  /**
   * The parts of the intent's `Uri` that are read; each may be null. How
   * Android splits a URI string into them is not part of this model.
   */
  datatype Uri = Uri(scheme: Option<string>, host: Option<string>, query: Option<string>)

  /** The parts of the activity's `Intent` that are read; each may be null. */
  datatype Intent = Intent(action: Option<string>, data: Option<Uri>)

  /** `query.split("loc:")[1].split(",")[0]`, or `None` where the index is out of bounds. */
  function LatitudeToken(query: string): Option<string> {
    SecondPieceHead(query, LOC_MARKER, ",")
  }

  /** `query.split(",")[1].split(" ")[0]`, or `None` where the index is out of bounds. */
  function LongitudeToken(query: string): Option<string> {
    SecondPieceHead(query, ",", " ")
  }

  /**
   * The latitude text is what follows the first "loc:", cut at the next
   * "loc:" and then at the first comma; there is one whenever that text is
   * not empty, and none without a "loc:".
   */
  lemma LatitudeTokenIs(query: string)
    ensures IndexOf(query, LOC_MARKER).None? ==> LatitudeToken(query).None?
    ensures IndexOf(query, LOC_MARKER).Some? ==>
      var token := UpTo(UpTo(AfterFirst(query, LOC_MARKER), LOC_MARKER), ",");
      (LatitudeToken(query).Some? ==> LatitudeToken(query).value == token) &&
      (token != "" ==> LatitudeToken(query) == Some(token))
  {
    SecondPieceHeadIs(query, LOC_MARKER, ",");
  }

  /**
   * The longitude text is what follows the first comma of the WHOLE query
   * (not the comma after "loc:"), up to the next comma and then the first
   * space; there is none when the query has no comma.
   */
  lemma LongitudeTokenIs(query: string)
    ensures IndexOf(query, ",").None? ==> LongitudeToken(query).None?
    ensures IndexOf(query, ",").Some? ==>
      var token := UpTo(UpTo(AfterFirst(query, ","), ","), " ");
      (LongitudeToken(query).Some? ==> LongitudeToken(query).value == token) &&
      (token != "" ==> LongitudeToken(query) == Some(token))
  {
    SecondPieceHeadIs(query, ",", " ");
  }

  /**
   * The body of the `try` block in `getPointLocationFromIntent`: the
   * destination, or the exception that ends the block. `parse` stands for
   * `Double.valueOf`, `None` meaning NumberFormatException.
   */
  function PointLocation(intent: Intent, parse: string -> Option<Double>): (r: Result<Coord>)
    ensures r.Ok? ==>
      && intent.action == Some(ACTION_VIEW)
      && intent.data.Some?
      && intent.data.value.scheme.Some?
      && (intent.data.value.scheme == Some(GEO_SCHEME) || intent.data.value.host == Some(MAPS_HOST))
      && intent.data.value.query.Some?
      && LatitudeToken(intent.data.value.query.value).Some?
      && LongitudeToken(intent.data.value.query.value).Some?
      && parse(LatitudeToken(intent.data.value.query.value).value) == Some(r.value.latitude)
      && parse(LongitudeToken(intent.data.value.query.value).value) == Some(r.value.longitude)
    ensures (&& intent.action == Some(ACTION_VIEW)
             && intent.data.Some?
             && intent.data.value.scheme.Some?
             && (intent.data.value.scheme == Some(GEO_SCHEME) || intent.data.value.host == Some(MAPS_HOST))
             && intent.data.value.query.Some?
             && LatitudeToken(intent.data.value.query.value).Some?
             && LongitudeToken(intent.data.value.query.value).Some?
             && parse(LatitudeToken(intent.data.value.query.value).value).Some?
             && parse(LongitudeToken(intent.data.value.query.value).value).Some?) ==>
      r == Ok(Coord(parse(LatitudeToken(intent.data.value.query.value).value).value,
                    parse(LongitudeToken(intent.data.value.query.value).value).value))
    ensures intent.action.Some? && intent.action.value != ACTION_VIEW ==> r == Err(IllegalArgument)
    ensures intent.action.None? ==> r == Err(NullPointer)
    ensures intent.action == Some(ACTION_VIEW) && (intent.data.None? || intent.data.value.scheme.None?) ==>
      r == Err(NullPointer)
  {
    if intent.action.None? then Err(NullPointer)
    else if intent.action.value != ACTION_VIEW then Err(IllegalArgument)
    else if intent.data.None? then Err(NullPointer)
    else
      var uri := intent.data.value;
      if uri.scheme.None? then Err(NullPointer)
      else if uri.scheme.value != GEO_SCHEME && uri.host.None? then Err(NullPointer)
      else if uri.scheme.value != GEO_SCHEME && uri.host.value != MAPS_HOST then Err(IllegalArgument)
      else if uri.query.None? then Err(NullPointer)
      else
        match LatitudeToken(uri.query.value)
        case None => Err(IndexOutOfBounds)
        case Some(latText) =>
          match parse(latText)
          case None => Err(NumberFormat)
          case Some(lat) =>
            match LongitudeToken(uri.query.value)
            case None => Err(IndexOutOfBounds)
            case Some(lonText) =>
              match parse(lonText)
              case None => Err(NumberFormat)
              case Some(lon) => Ok(Coord(lat, lon))
  }

  /**
   * `getPointLocationFromIntent`: the destination when the `try` block
   * succeeds, and (0,0) whenever it throws (the toast is not modelled).
   */
  function PointLocationFromIntent(intent: Intent, parse: string -> Option<Double>): (r: Coord)
    ensures PointLocation(intent, parse).Err? ==> r == ORIGIN
    ensures PointLocation(intent, parse).Ok? ==> r == PointLocation(intent, parse).value
  {
    match PointLocation(intent, parse)
    case Ok(p) => p
    case Err(_) => ORIGIN
  }

  /**
   * Coordinates are taken only from a VIEW intent whose URI has the `geo`
   * scheme or the maps.google.com host, and whose query holds both a "loc:"
   * and a comma; every other intent yields (0,0).
   */
  lemma FallsBackToOrigin(intent: Intent, parse: string -> Option<Double>)
    ensures intent.action != Some(ACTION_VIEW) ==> PointLocationFromIntent(intent, parse) == ORIGIN
    ensures intent.data.None? ==> PointLocationFromIntent(intent, parse) == ORIGIN
    ensures (intent.data.Some? && intent.data.value.scheme != Some(GEO_SCHEME) &&
             intent.data.value.host != Some(MAPS_HOST)) ==> PointLocationFromIntent(intent, parse) == ORIGIN
    ensures (intent.data.Some? && intent.data.value.query.Some? &&
             (IndexOf(intent.data.value.query.value, LOC_MARKER).None? ||
              IndexOf(intent.data.value.query.value, ",").None?)) ==>
              PointLocationFromIntent(intent, parse) == ORIGIN
  {
    if intent.data.Some? && intent.data.value.query.Some? {
      LatitudeTokenIs(intent.data.value.query.value);
      LongitudeTokenIs(intent.data.value.query.value);
    }
  }

  /** `s` has none of the characters in `cs`. */
  predicate Avoids(s: string, cs: set<char>) {
    forall k :: 0 <= k < |s| ==> s[k] !in cs
  }

  /**
   * The latitude text of "A loc:LAT,REST" is LAT when A has no 'l' (so no
   * earlier "loc:") and LAT neither comma nor 'l'.
   */
  lemma LatitudeAfterMarker(a: string, lat: string, rest: string)
    requires Avoids(a, {'l'}) && Avoids(lat, {',', 'l'}) && lat != ""
    ensures LatitudeToken(a + LOC_MARKER + lat + "," + rest) == Some(lat)
  {
    assert a + LOC_MARKER + lat + "," + rest == a + LOC_MARKER + (lat + "," + rest);
    SecondPieceHeadOf(a, LOC_MARKER, lat, ",", rest);
  }

  /**
   * The longitude text of "H,LON REST" is LON when H has no comma and LON
   * neither comma nor space, wherever the "loc:" marker stands in H.
   */
  lemma LongitudeAfterFirstComma(head: string, lon: string, rest: string)
    requires Avoids(head, {','}) && Avoids(lon, {',', ' '}) && lon != ""
    ensures LongitudeToken(head + "," + lon + " " + rest) == Some(lon)
  {
    assert head + "," + lon + " " + rest == head + "," + (lon + " " + rest);
    SecondPieceHeadOf(head, ",", lon, " ", rest);
  }

  /**
   * A well-formed query "A loc:LAT,LON REST", where A holds no comma and no
   * 'l', LAT no comma and no 'l', and LON no comma and no space: the two
   * texts handed to `Double.valueOf` are LAT and LON.
   */
  lemma WellFormedQuery(a: string, lat: string, lon: string, rest: string)
    requires Avoids(a, {',', 'l'}) && Avoids(lat, {',', 'l'}) && Avoids(lon, {',', ' '})
    requires lat != "" && lon != ""
    ensures LatitudeToken(a + LOC_MARKER + lat + "," + lon + " " + rest) == Some(lat)
    ensures LongitudeToken(a + LOC_MARKER + lat + "," + lon + " " + rest) == Some(lon)
  {
    var q := a + LOC_MARKER + lat + "," + lon + " " + rest;
    var head := a + LOC_MARKER + lat;
    var tail := lon + " " + rest;
    assert q == head + "," + tail;
    assert Avoids(head, {','});
    LatitudeAfterMarker(a, lat, tail);
    LongitudeAfterFirstComma(head, lon, rest);
  }

  /**
   * A `geo:` VIEW intent whose query is "A loc:LAT,LON REST", with LAT and
   * LON parsing to x and y, opens the arrow towards (x, y), whatever the
   * host.
   */
  lemma GeoIntentGivesDestination(a: string, lat: string, lon: string, rest: string, host: Option<string>,
                                  parse: string -> Option<Double>, x: Double, y: Double)
    requires Avoids(a, {',', 'l'}) && Avoids(lat, {',', 'l'}) && Avoids(lon, {',', ' '})
    requires lat != "" && lon != ""
    requires parse(lat) == Some(x) && parse(lon) == Some(y)
    ensures var q := a + LOC_MARKER + lat + "," + lon + " " + rest;
      PointLocationFromIntent(Intent(Some(ACTION_VIEW), Some(Uri(Some(GEO_SCHEME), host, Some(q)))), parse)
        == Coord(x, y)
  {
    WellFormedQuery(a, lat, lon, rest);
  }

  /**
   * A comma before the marker shifts the longitude: in "A,B loc:LAT,REST"
   * (A and B without comma, 'l' or space, LAT without comma or 'l') the
   * latitude text is LAT but the longitude text is B, whatever follows
   * the comma after LAT.
   */
  lemma CommaBeforeMarker(a: string, b: string, lat: string, rest: string)
    requires Avoids(a, {',', 'l'}) && Avoids(b, {',', 'l', ' '}) && Avoids(lat, {',', 'l'})
    requires lat != "" && b != ""
    ensures LatitudeToken(a + "," + b + " " + LOC_MARKER + lat + "," + rest) == Some(lat)
    ensures LongitudeToken(a + "," + b + " " + LOC_MARKER + lat + "," + rest) == Some(b)
  {
    var q := a + "," + b + " " + LOC_MARKER + lat + "," + rest;
    var head := a + "," + b + " ";
    var tail := LOC_MARKER + lat + "," + rest;
    assert q == head + LOC_MARKER + lat + "," + rest;
    assert q == a + "," + b + " " + tail;
    assert Avoids(head, {'l'}) by {
      assert head == a + [','] + b + [' '];
    }
    LatitudeAfterMarker(head, lat, rest);
    LongitudeAfterFirstComma(a, b, tail);
  }

  /**
   * `sendStartActivityMessage`: the payload is `toByteArray` of the
   * destination's [latitude, longitude], 16 bytes.
   */
  method StartActivityPayload(destination: Coord) returns (bytes: array<Byte>)
    ensures bytes.Length == 2 * Payload.SLOT
    ensures bytes[..] == Payload.Encode([destination.latitude, destination.longitude])
  {
    var location := new Double[2];
    location[0] := destination.latitude;
    location[1] := destination.longitude;
    bytes := Payload.ToByteArray(location);
    assert location[..] == [destination.latitude, destination.longitude];
  }
}

=== FILE: javatext.dfy ===
/**
 * Java's `String.split` for a separator that is plain text (no regular
 * expression characters), as used on the query of the incoming map URI:
 * the text is cut at every non-overlapping occurrence of the separator,
 * scanning from the left; when the separator never occurs the result is
 * the whole text, otherwise trailing empty strings are removed.
 */
module JavaText {
  import opened Common

  /** `sep` occurs in `s` at index `k`. */
  predicate OccursAt(s: string, sep: string, k: nat) {
    k + |sep| <= |s| && s[k .. k + |sep|] == sep
  }

  /** The first occurrence of `sep` in `s` at or after `from`, as `indexOf` finds it. */
  function IndexFrom(s: string, sep: string, from: nat): (r: Option<nat>)
    requires |sep| > 0 && from <= |s|
    ensures r.Some? ==> from <= r.value && OccursAt(s, sep, r.value)
    ensures r.Some? ==> forall k :: from <= k < r.value ==> !OccursAt(s, sep, k)
    ensures r.None? ==> forall k :: from <= k ==> !OccursAt(s, sep, k)
    decreases |s| - from
  {
    if from + |sep| > |s| then None
    else if s[from .. from + |sep|] == sep then Some(from)
    else IndexFrom(s, sep, from + 1)
  }

  function IndexOf(s: string, sep: string): (r: Option<nat>)
    requires |sep| > 0
  {
    IndexFrom(s, sep, 0)
  }

  /** `i` is the first occurrence when no earlier character even starts `sep`. */
  lemma FirstOccurrence(s: string, sep: string, i: nat)
    requires |sep| > 0 && OccursAt(s, sep, i)
    requires forall k :: 0 <= k < i ==> s[k] != sep[0]
    ensures IndexOf(s, sep) == Some(i)
  {
    forall k: nat | OccursAt(s, sep, k)
      ensures s[k] == sep[0]
    {
      assert s[k .. k + |sep|][0] == s[k];
    }
  }

  /** Without a character that starts `sep`, `sep` does not occur. */
  lemma NoOccurrence(s: string, sep: string)
    requires |sep| > 0
    requires forall k :: 0 <= k < |s| ==> s[k] != sep[0]
    ensures IndexOf(s, sep).None?
  {
    forall k: nat | OccursAt(s, sep, k)
      ensures s[k] == sep[0]
    {
      assert s[k .. k + |sep|][0] == s[k];
    }
  }

  /** `s` up to (not including) the first `sep`, or all of `s` when there is none. */
  function UpTo(s: string, sep: string): string
    requires |sep| > 0
  {
    match IndexOf(s, sep)
    case None => s
    case Some(i) => s[..i]
  }

  /** `s` after the first `sep`, which must occur. */
  function AfterFirst(s: string, sep: string): string
    requires |sep| > 0 && IndexOf(s, sep).Some?
  {
    s[IndexOf(s, sep).value + |sep| ..]
  }

  /** A prefix of `s` that ends before the first `sep` contains no `sep`. */
  lemma PrefixBeforeFirst(s: string, sep: string, i: nat)
    requires |sep| > 0 && i <= |s|
    requires forall k: nat :: k < i ==> !OccursAt(s, sep, k)
    ensures IndexOf(s[..i], sep).None?
  {
    if IndexOf(s[..i], sep).Some? {
      var k := IndexOf(s[..i], sep).value;
      assert s[..i][k .. k + |sep|] == s[k .. k + |sep|];
      assert OccursAt(s, sep, k);
    }
  }

  /** Text before the first separator, the separator, and the rest. */
  lemma CutAtFirst(a: string, sep: string, b: string)
    requires |sep| > 0
    requires forall k :: 0 <= k < |a| ==> a[k] != sep[0]
    ensures IndexOf(a + sep + b, sep) == Some(|a|)
    ensures UpTo(a + sep + b, sep) == a && AfterFirst(a + sep + b, sep) == b
  {
    var s := a + sep + b;
    assert s[|a| .. |a| + |sep|] == sep;
    FirstOccurrence(s, sep, |a|);
    assert s[..|a|] == a && s[|a| + |sep| ..] == b;
  }

  /** Text without the separator's first character is its own prefix up to it. */
  lemma UpToWithout(s: string, sep: string)
    requires |sep| > 0
    requires forall k :: 0 <= k < |s| ==> s[k] != sep[0]
    ensures IndexOf(s, sep).None? && UpTo(s, sep) == s
  {
    NoOccurrence(s, sep);
  }

  /**
   * Cutting at `sep` and then at the one-character `c`: when `p` holds
   * neither and `c` does not start `sep`, what is left is `p`.
   */
  lemma UpToThenUpTo(p: string, sep: string, c: string, y: string)
    requires |sep| > 0 && |c| == 1 && c[0] != sep[0]
    requires forall k :: 0 <= k < |p| ==> p[k] != sep[0] && p[k] != c[0]
    ensures UpTo(UpTo(p + c + y, sep), c) == p
  {
    var x := p + c + y;
    forall k: nat | OccursAt(x, sep, k)
      ensures k > |p|
    {
      assert x[k .. k + |sep|][0] == x[k];
    }
    var cut := UpTo(x, sep);
    assert |cut| > |p| && cut == p + c + cut[|p| + 1 ..];
    CutAtFirst(p, c, cut[|p| + 1 ..]);
  }

  /** All the pieces of `s` cut at each `sep`, empty ones included. */
  function SplitAll(s: string, sep: string): (r: seq<string>)
    requires |sep| > 0
    ensures |r| >= 1 && r[0] == UpTo(s, sep)
    ensures IndexOf(s, sep).Some? ==> |r| >= 2 && r[1] == UpTo(AfterFirst(s, sep), sep)
    ensures forall k :: 0 <= k < |r| ==> IndexOf(r[k], sep).None?
    decreases |s|
  {
    match IndexOf(s, sep)
    case None => [s]
    case Some(i) =>
      PrefixBeforeFirst(s, sep, i);
      [s[..i]] + SplitAll(s[i + |sep| ..], sep)
  }

  /** The pieces put back together with `sep` between them. */
  function Join(pieces: seq<string>, sep: string): string
    requires |pieces| >= 1
  {
    if |pieces| == 1 then pieces[0] else pieces[0] + sep + Join(pieces[1..], sep)
  }

  /** One cut: the first piece, then the pieces of what follows the first `sep`. */
  lemma SplitAllCons(s: string, sep: string)
    requires |sep| > 0 && IndexOf(s, sep).Some?
    ensures SplitAll(s, sep) == [UpTo(s, sep)] + SplitAll(AfterFirst(s, sep), sep)
  {
  }

  /** The text is its first piece, the separator, and what follows. */
  lemma CutAround(s: string, sep: string)
    requires |sep| > 0 && IndexOf(s, sep).Some?
    ensures s == UpTo(s, sep) + sep + AfterFirst(s, sep)
  {
    var i := IndexOf(s, sep).value;
    assert s[i .. i + |sep|] == sep;
    assert s == s[..i] + s[i .. i + |sep|] + s[i + |sep| ..];
  }

  /** Joining a first piece in front of further pieces puts `sep` between. */
  lemma JoinCons(first: string, rest: seq<string>, sep: string)
    requires |rest| >= 1
    ensures Join([first] + rest, sep) == first + sep + Join(rest, sep)
  {
    assert ([first] + rest)[1..] == rest;
  }

  /** Cutting loses nothing: joining the pieces gives back the text. */
  lemma {:induction false} JoinSplitAll(s: string, sep: string)
    requires |sep| > 0
    ensures Join(SplitAll(s, sep), sep) == s
    decreases |s|
  {
    if IndexOf(s, sep).Some? {
      var first, rest := UpTo(s, sep), AfterFirst(s, sep);
      SplitAllCons(s, sep);
      JoinCons(first, SplitAll(rest, sep), sep);
      JoinSplitAll(rest, sep);
      CutAround(s, sep);
    }
  }

  /** The pieces without the empty strings at their end. */
  function DropTrailingEmpty(pieces: seq<string>): (r: seq<string>)
    ensures |r| <= |pieces| && r == pieces[..|r|]
    ensures forall k :: |r| <= k < |pieces| ==> pieces[k] == ""
    ensures |r| > 0 ==> r[|r| - 1] != ""
    decreases |pieces|
  {
    if |pieces| == 0 then []
    else if pieces[|pieces| - 1] == "" then DropTrailingEmpty(pieces[..|pieces| - 1])
    else pieces
  }

  /** `s.split(sep)` for a separator without regular-expression characters. */
  function Split(s: string, sep: string): (r: seq<string>)
    requires |sep| > 0
  {
    if IndexOf(s, sep).None? then [s] else DropTrailingEmpty(SplitAll(s, sep))
  }

  /**
   * What `split` returns: without a match the whole text; otherwise a prefix
   * of the pieces, the ones dropped being empty and the last one kept not.
   */
  lemma SplitIsTrimmedPieces(s: string, sep: string)
    requires |sep| > 0
    ensures IndexOf(s, sep).None? ==> Split(s, sep) == [s]
    ensures IndexOf(s, sep).Some? ==>
      var r, all := Split(s, sep), SplitAll(s, sep);
      r == all[..|r|] && (forall k :: |r| <= k < |all| ==> all[k] == "") &&
      (|r| > 0 ==> r[|r| - 1] != "")
  {
  }

  /** A piece that is not empty survives the trimming, and so do all before it. */
  lemma SplitKeepsNonEmpty(s: string, sep: string, k: nat)
    requires |sep| > 0
    requires k < |SplitAll(s, sep)| && SplitAll(s, sep)[k] != ""
    ensures k < |Split(s, sep)| && Split(s, sep)[k] == SplitAll(s, sep)[k]
  {
  }

  /**
   * `s.split(sep1)[1].split(sep2)[0]`, or `None` where Java throws
   * ArrayIndexOutOfBoundsException because the array is too short.
   */
  function SecondPieceHead(s: string, sep1: string, sep2: string): (r: Option<string>)
    requires |sep1| > 0 && |sep2| > 0
  {
    var outer := Split(s, sep1);
    if |outer| < 2 then None
    else
      var inner := Split(outer[1], sep2);
      if |inner| < 1 then None else Some(inner[0])
  }

  /**
   * The token picked by `s.split(sep1)[1].split(sep2)[0]` is the text after
   * the first `sep1`, up to the next `sep1`, then up to the first `sep2`.
   * There is none when `sep1` does not occur; there is one whenever that
   * text is not empty.
   */
  lemma SecondPieceHeadIs(s: string, sep1: string, sep2: string)
    requires |sep1| > 0 && |sep2| > 0
    ensures IndexOf(s, sep1).None? ==> SecondPieceHead(s, sep1, sep2).None?
    ensures IndexOf(s, sep1).Some? ==>
      var token := UpTo(UpTo(AfterFirst(s, sep1), sep1), sep2);
      (SecondPieceHead(s, sep1, sep2).Some? ==> SecondPieceHead(s, sep1, sep2).value == token) &&
      (token != "" ==> SecondPieceHead(s, sep1, sep2) == Some(token))
  {
    if IndexOf(s, sep1).Some? {
      var all := SplitAll(s, sep1);
      var outer := Split(s, sep1);
      var piece := UpTo(AfterFirst(s, sep1), sep1);
      assert all[1] == piece;
      if |outer| >= 2 {
        assert outer[1] == piece;
        SplitFirstPiece(piece, sep2);
      }
      if UpTo(piece, sep2) != "" {
        SplitKeepsNonEmpty(s, sep1, 1);
        SplitKeepsNonEmpty(piece, sep2, 0);
        SplitFirstPiece(piece, sep2);
      }
    }
  }

  /**
   * In "A sep1 P c Y", where A and P hold no character starting `sep1`, P
   * holds no `c` and `c` does not start `sep1`, the token
   * `split(sep1)[1].split(c)[0]` is P whenever P is not empty.
   */
  lemma SecondPieceHeadOf(a: string, sep1: string, p: string, c: string, y: string)
    requires |sep1| > 0 && |c| == 1 && c[0] != sep1[0] && p != ""
    requires forall k :: 0 <= k < |a| ==> a[k] != sep1[0]
    requires forall k :: 0 <= k < |p| ==> p[k] != sep1[0] && p[k] != c[0]
    ensures SecondPieceHead(a + sep1 + (p + c + y), sep1, c) == Some(p)
  {
    var s := a + sep1 + (p + c + y);
    CutAtFirst(a, sep1, p + c + y);
    UpToThenUpTo(p, sep1, c, y);
    SecondPieceHeadIs(s, sep1, c);
  }

  /** The first element of `split`, when there is one, is the text up to the first separator. */
  lemma SplitFirstPiece(s: string, sep: string)
    requires |sep| > 0
    ensures |Split(s, sep)| >= 1 ==> Split(s, sep)[0] == UpTo(s, sep)
  {
  }
}

=== FILE: payload.dfy ===
/**
 * The position payload exchanged between the handheld and the wearable: an
 * array of doubles packed into consecutive 8-byte slots, each holding the
 * big-endian IEEE 754 binary64 encoding of one value (what
 * `ByteBuffer.putDouble` and `ByteBuffer.getDouble` do by default).
 */
module Payload {
  import opened Common

  /** `Double.SIZE / Byte.SIZE` */
  const SLOT: nat := 8

  /** The 8 bytes `putDouble` writes for `x`, most significant first. */
  function EncodeSlot(x: Double): (r: seq<Byte>)
    ensures |r| == SLOT
  {
    [ ((x >> 56) & 0xFF) as Byte, ((x >> 48) & 0xFF) as Byte,
      ((x >> 40) & 0xFF) as Byte, ((x >> 32) & 0xFF) as Byte,
      ((x >> 24) & 0xFF) as Byte, ((x >> 16) & 0xFF) as Byte,
      ((x >> 8) & 0xFF) as Byte, (x & 0xFF) as Byte ]
  }

  /** The double `getDouble` reads from 8 bytes, the first one most significant. */
  function DecodeSlot(s: seq<Byte>): Double
    requires |s| == SLOT
  {
    (s[0] as Double << 56) | (s[1] as Double << 48) | (s[2] as Double << 40) | (s[3] as Double << 32) |
    (s[4] as Double << 24) | (s[5] as Double << 16) | (s[6] as Double << 8) | (s[7] as Double)
  }

  lemma DecodeEncodeSlot(x: Double)
    ensures DecodeSlot(EncodeSlot(x)) == x
  {
  }

  /** The four high bytes of a decoded slot are the first four bytes read. */
  lemma EncodeDecodeHigh(s: seq<Byte>)
    requires |s| == SLOT
    ensures var e := EncodeSlot(DecodeSlot(s)); e[0] == s[0] && e[1] == s[1] && e[2] == s[2] && e[3] == s[3]
  {
  }

  /** The four low bytes of a decoded slot are the last four bytes read. */
  lemma EncodeDecodeLow(s: seq<Byte>)
    requires |s| == SLOT
    ensures var e := EncodeSlot(DecodeSlot(s)); e[4] == s[4] && e[5] == s[5] && e[6] == s[6] && e[7] == s[7]
  {
  }

  lemma EncodeDecodeSlot(s: seq<Byte>)
    requires |s| == SLOT
    ensures EncodeSlot(DecodeSlot(s)) == s
  {
    EncodeDecodeHigh(s);
    EncodeDecodeLow(s);
  }

  /** The payload of a sequence of doubles: their slots one after another. */
  function Encode(xs: seq<Double>): (r: seq<Byte>)
    ensures |r| == SLOT * |xs|
  {
    if xs == [] then [] else EncodeSlot(xs[0]) + Encode(xs[1..])
  }

  /** The doubles read from a payload: one per complete slot, a partial last slot ignored. */
  function Decode(bs: seq<Byte>): (r: seq<Double>)
    ensures |r| == |bs| / SLOT
    decreases |bs|
  {
    if |bs| < SLOT then [] else [DecodeSlot(bs[..SLOT])] + Decode(bs[SLOT..])
  }

  /** Encoding one more value appends its slot. */
  lemma {:induction false} EncodeSnoc(xs: seq<Double>, x: Double)
    ensures Encode(xs + [x]) == Encode(xs) + EncodeSlot(x)
  {
    if xs == [] {
      assert xs + [x] == [x];
    } else {
      assert (xs + [x])[1..] == xs[1..] + [x];
      EncodeSnoc(xs[1..], x);
    }
  }

  /** Slot `i` of an encoding is the big-endian encoding of element `i`. */
  lemma {:induction false} EncodeAt(xs: seq<Double>, i: nat)
    requires i < |xs|
    ensures Encode(xs)[SLOT * i .. SLOT * i + SLOT] == EncodeSlot(xs[i])
  {
    if i > 0 {
      EncodeAt(xs[1..], i - 1);
      var rest := Encode(xs[1..]);
      assert Encode(xs) == EncodeSlot(xs[0]) + rest;
      assert Encode(xs)[SLOT * i .. SLOT * i + SLOT] == rest[SLOT * (i - 1) .. SLOT * (i - 1) + SLOT];
    }
  }

  /** Value `i` of a decoding is read from bytes `8i .. 8i+8` and from nothing else. */
  lemma {:induction false} DecodeAt(bs: seq<Byte>, i: nat)
    requires i < |bs| / SLOT
    ensures Decode(bs)[i] == DecodeSlot(bs[SLOT * i .. SLOT * i + SLOT])
    decreases |bs|
  {
    if i > 0 {
      var tail := bs[SLOT..];
      DecodeAt(tail, i - 1);
      var k := SLOT * (i - 1);
      assert k + SLOT == SLOT * i;
      assert tail[k .. k + SLOT] == bs[SLOT * i .. SLOT * i + SLOT];
    }
  }

  /** Two payloads that agree on slot `i` decode to the same value `i`. */
  lemma DecodeIsLocal(bs: seq<Byte>, cs: seq<Byte>, i: nat)
    requires i < |bs| / SLOT && i < |cs| / SLOT
    requires bs[SLOT * i .. SLOT * i + SLOT] == cs[SLOT * i .. SLOT * i + SLOT]
    ensures Decode(bs)[i] == Decode(cs)[i]
  {
    DecodeAt(bs, i);
    DecodeAt(cs, i);
  }

  /** Decoding what was encoded gives back the same doubles, bit for bit. */
  lemma {:induction false} DecodeEncode(xs: seq<Double>)
    ensures Decode(Encode(xs)) == xs
  {
    if xs != [] {
      var e := Encode(xs);
      assert e[..SLOT] == EncodeSlot(xs[0]);
      assert e[SLOT..] == Encode(xs[1..]);
      DecodeEncodeSlot(xs[0]);
      DecodeEncode(xs[1..]);
    }
  }

  /** A payload made of whole slots is the encoding of what it decodes to. */
  lemma {:induction false} EncodeDecode(bs: seq<Byte>)
    requires |bs| % SLOT == 0
    ensures Encode(Decode(bs)) == bs
    decreases |bs|
  {
    if |bs| >= SLOT {
      var d := Decode(bs);
      assert d[1..] == Decode(bs[SLOT..]);
      EncodeDecodeSlot(bs[..SLOT]);
      EncodeDecode(bs[SLOT..]);
      assert bs == bs[..SLOT] + bs[SLOT..];
    }
  }

  /** Bytes after the last complete slot do not change the decoding. */
  lemma {:induction false} DecodeIgnoresTail(bs: seq<Byte>, tail: seq<Byte>)
    requires |bs| % SLOT == 0 && |tail| < SLOT
    ensures Decode(bs + tail) == Decode(bs)
    decreases |bs|
  {
    if |bs| >= SLOT {
      assert (bs + tail)[..SLOT] == bs[..SLOT];
      assert (bs + tail)[SLOT..] == bs[SLOT..] + tail;
      DecodeIgnoresTail(bs[SLOT..], tail);
    } else {
      assert bs == [];
      assert bs + tail == tail;
    }
  }

  /** Writing the slot of element `i` after the slots of the elements before it extends the encoding. */
  lemma EncodePrefixStep(bytes: seq<Byte>, xs: seq<Double>, i: nat)
    requires i < |xs| && SLOT * i + SLOT <= |bytes|
    requires bytes[..SLOT * i] == Encode(xs[..i])
    requires bytes[SLOT * i .. SLOT * i + SLOT] == EncodeSlot(xs[i])
    ensures bytes[..SLOT * (i + 1)] == Encode(xs[..i + 1])
  {
    EncodeSnoc(xs[..i], xs[i]);
    assert xs[..i + 1] == xs[..i] + [xs[i]];
    assert bytes[..SLOT * i + SLOT] == bytes[..SLOT * i] + bytes[SLOT * i .. SLOT * i + SLOT];
  }

  /** `ByteBuffer.wrap(bytes, offset, 8).putDouble(x)`: one slot written, the rest untouched. */
  method PutDouble(bytes: array<Byte>, offset: nat, x: Double)
    requires offset + SLOT <= bytes.Length
    modifies bytes
    ensures bytes[offset .. offset + SLOT] == EncodeSlot(x)
    ensures bytes[..offset] == old(bytes[..offset])
    ensures bytes[offset + SLOT ..] == old(bytes[offset + SLOT ..])
  {
    var e := EncodeSlot(x);
    var k := 0;
    while k < SLOT
      invariant 0 <= k <= SLOT
      invariant bytes[offset .. offset + k] == e[..k]
      invariant bytes[..offset] == old(bytes[..offset])
      invariant bytes[offset + SLOT ..] == old(bytes[offset + SLOT ..])
    {
      bytes[offset + k] := e[k];
      k := k + 1;
    }
  }

  /**
   * `toByteArray`: a new array of `8 * n` bytes whose slot `i` holds
   * the big-endian encoding of `doubleArray[i]`.
   */
  method ToByteArray(doubleArray: array<Double>) returns (bytes: array<Byte>)
    ensures bytes.Length == SLOT * doubleArray.Length
    ensures bytes[..] == Encode(doubleArray[..])
  {
    bytes := new Byte[doubleArray.Length * SLOT];
    var i := 0;
    while i < doubleArray.Length
      invariant 0 <= i <= doubleArray.Length
      invariant bytes[..SLOT * i] == Encode(doubleArray[..i])
    {
      PutDouble(bytes, SLOT * i, doubleArray[i]);
      EncodePrefixStep(bytes[..], doubleArray[..], i);
      i := i + 1;
    }
    assert doubleArray[..i] == doubleArray[..];
    assert bytes[..SLOT * i] == bytes[..];
  }

  /**
   * `toDoubleArray`: a new array of `len / 8` doubles, element `i` read
   * big-endian from bytes `8i .. 8i+8`; a partial last slot is ignored.
   */
  method ToDoubleArray(byteArray: array<Byte>) returns (doubles: array<Double>)
    ensures doubles.Length == byteArray.Length / SLOT
    ensures doubles[..] == Decode(byteArray[..])
  {
    doubles := new Double[byteArray.Length / SLOT];
    var i := 0;
    while i < doubles.Length
      invariant 0 <= i <= doubles.Length
      invariant forall j :: 0 <= j < i ==> doubles[j] == DecodeSlot(byteArray[SLOT * j .. SLOT * j + SLOT])
    {
      doubles[i] := DecodeSlot(byteArray[SLOT * i .. SLOT * i + SLOT]);
      i := i + 1;
    }
    forall j | 0 <= j < doubles.Length
      ensures doubles[j] == Decode(byteArray[..])[j]
    {
      DecodeAt(byteArray[..], j);
      assert byteArray[..][SLOT * j .. SLOT * j + SLOT] == byteArray[SLOT * j .. SLOT * j + SLOT];
    }
  }
}

=== FILE: sensors.dfy ===
/**
 * The orientation listener (`JSensorEventListener`, one copy on each device):
 * a running flag kept in step with its registration for the magnetic field
 * and accelerometer sensors. The azimuth and rotation computation is
 * floating-point numerics and is not part of this model.
 */
module Sensors {

  datatype Sensor = MagneticField | Accelerometer

  const BOTH_SENSORS: set<Sensor> := {MagneticField, Accelerometer}

  class SensorListener {
    /** `isRunning` (handheld) / `isLocalRunning` (wearable). */
    var isRunning: bool
    /** The sensors the sensor manager currently delivers to this listener. */
    var registered: set<Sensor>

    /** The flag says exactly whether the listener is registered for both sensors. */
    ghost predicate Valid()
      reads this
    {
      (isRunning ==> registered == BOTH_SENSORS) && (!isRunning ==> registered == {})
    }

    constructor ()
      ensures Valid() && !isRunning
    {
      isRunning := false;
      registered := {};
    }

    /** `stopUsingGiro`: does nothing unless running; otherwise unregisters and clears the flag. */
    method StopUsingGiro()
      requires Valid()
      modifies this
      ensures Valid() && !isRunning && registered == {}
      ensures !old(isRunning) ==> registered == old(registered)
    {
      if !isRunning {
        return;
      }
      registered := {};
      isRunning := false;
    }

    /** `startUsingGiro`: stops first when running, then registers for both sensors. */
    method StartUsingGiro()
      requires Valid()
      modifies this
      ensures Valid() && isRunning && registered == BOTH_SENSORS
    {
      if isRunning {
        StopUsingGiro();
      }
      registered := registered + {MagneticField};
      registered := registered + {Accelerometer};
      isRunning := true;
    }
  }
}

=== FILE: wear_main.dfy ===
/**
 * The wearable's `MainActivity`: the destination is read from the
 * `location` extra of the intent that opened it, the payload the handheld
 * put there.
 */
module WearMain {
  import opened Common
  import opened Payload
  import Wearable

  /**
   * `getLocationFromIntent` for the `location` extra (`None` when the
   * intent has none): no destination without the extra, an
   * ArrayIndexOutOfBoundsException when fewer than two values decode, and
   * otherwise the first two 8-byte slots read as latitude and longitude.
   */
  function LocationFromExtra(extra: Option<seq<Byte>>): (r: Result<Option<Coord>>)
    ensures extra.None? ==> r == Ok(None)
    ensures extra.Some? && |extra.value| < 2 * SLOT ==> r == Err(IndexOutOfBounds)
    ensures extra.Some? && |extra.value| >= 2 * SLOT ==>
      r == Ok(Some(Coord(DecodeSlot(extra.value[..SLOT]), DecodeSlot(extra.value[SLOT .. 2 * SLOT]))))
  {
    match extra
    case None => Ok(None)
    case Some(bytes) =>
      var values := Decode(bytes);
      if |values| < 2 then Err(IndexOutOfBounds)
      else
        DecodeAt(bytes, 0);
        DecodeAt(bytes, 1);
        Ok(Some(Coord(values[0], values[1])))
  }

  /** `getLocationFromIntent`, decoding the extra with `toDoubleArray`. */
  method GetLocationFromIntent(extra: Option<array<Byte>>) returns (r: Result<Option<Coord>>)
    ensures r == LocationFromExtra(if extra.None? then None else Some(extra.value[..]))
  {
    if extra.None? {
      return Ok(None);
    }
    var values := ToDoubleArray(extra.value);
    if values.Length < 2 {
      return Err(IndexOutOfBounds);
    }
    return Ok(Some(Coord(values[0], values[1])));
  }

  /**
   * The 16 bytes the handheld puts in the start message give back the
   * destination it encoded, bit for bit.
   */
  lemma StartActivityRoundTrip(destination: Coord)
    ensures LocationFromExtra(Some(Encode([destination.latitude, destination.longitude]))) == Ok(Some(destination))
  {
    var bytes := Encode([destination.latitude, destination.longitude]);
    EncodeAt([destination.latitude, destination.longitude], 0);
    EncodeAt([destination.latitude, destination.longitude], 1);
    DecodeEncodeSlot(destination.latitude);
    DecodeEncodeSlot(destination.longitude);
    assert bytes[..SLOT] == bytes[0 .. SLOT];
  }

  /**
   * The arrow part of `setupViews` once a destination was read: a new arrow
   * is built and started. Its location listener has never executed its
   * background task, so the start cannot throw, and afterwards the arrow,
   * the location listener and both sensors are running.
   */
  method SetUpArrow(destination: Coord) returns (arrow: Wearable.WearRotationArrow, thrown: Option<Failure>)
    ensures arrow.Valid() && arrow.destination == destination
    ensures thrown.None?
    ensures arrow.isRunning && arrow.gps.isLocalRunning && arrow.giro.isRunning
    ensures arrow.userLocation.Value() == ORIGIN
  {
    arrow := new Wearable.WearRotationArrow(destination);
    thrown := arrow.Start();
  }
}

=== FILE: wearable.dfy ===
/**
 * The wearable's `WearRotationArrow`: positions relayed by the handheld
 * arrive as messages, are decoded, stored in a point that is created once
 * and then overwritten in place, and published to the screen unless they
 * coincide with the destination.
 */
module Wearable {
  import opened Common
  import Payload
  import Sensors

  /** The message path carrying an encoded [latitude, longitude]. */
  const GPS_PATH: string := "/gps_from_handheld"
  /** The message path by which the handheld ends the session. */
  const STOP_PATH: string := "/stop_sending_position"

  /** A mutable point, as the wearable's `LatLng` with public fields. */
  class LatLng {
    var latitude: Double
    var longitude: Double

    constructor (latitude: Double, longitude: Double)
      ensures this.latitude == latitude && this.longitude == longitude
    {
      this.latitude := latitude;
      this.longitude := longitude;
    }

    /** The coordinates the point holds now. */
    function Value(): Coord
      reads this
    {
      Coord(latitude, longitude)
    }
  }

  /**
   * The test in `updateLocation`: Java's `!=` on the latitudes or on the
   * longitudes of the point and the destination.
   */
  predicate IsNewPoint(p: Coord, destination: Coord) {
    !DoubleEquals(p.latitude, destination.latitude) || !DoubleEquals(p.longitude, destination.longitude)
  }

  /**
   * What the test means for doubles: a point never differs from itself
   * unless it holds a NaN, a NaN coordinate always counts as new, the sign
   * of a zero does not matter, and the test does not care which side is
   * the destination.
   */
  lemma NewPointProperties(p: Coord, destination: Coord)
    ensures !IsNaN(p.latitude) && !IsNaN(p.longitude) ==> !IsNewPoint(p, p)
    ensures IsNaN(p.latitude) || IsNaN(p.longitude) ==> IsNewPoint(p, destination)
    ensures IsNewPoint(p, destination) <==> IsNewPoint(destination, p)
    ensures !IsNaN(p.longitude) ==>
      !IsNewPoint(Coord(POSITIVE_ZERO, p.longitude), Coord(NEGATIVE_ZERO, p.longitude))
  {
    DoubleEqualsProperties(p.latitude, destination.latitude);
    DoubleEqualsProperties(p.longitude, destination.longitude);
    DoubleEqualsProperties(POSITIVE_ZERO, NEGATIVE_ZERO);
  }

  /**
   * `JWearLocationListener`: a running flag, the Play-services client that
   * is connected once when the listener is built, the one-shot background
   * task, and the point received last.
   */
  class WearLocationListener {
    var isLocalRunning: bool
    /** Whether the client is connected (or connecting); it is never reconnected. */
    var clientConnected: bool
    /** Whether the background task has been executed; an `AsyncTask` runs at most once. */
    var executed: bool
    /** `mLocalLatLng`: null until the first position arrives. */
    var localLatLng: LatLng?

    /** Running means the background task has been executed. */
    ghost predicate Valid()
      reads this
    {
      isLocalRunning ==> executed
    }

    constructor ()
      ensures Valid() && !isLocalRunning && clientConnected && !executed && localLatLng == null
    {
      isLocalRunning := false;
      clientConnected := true;
      executed := false;
      localLatLng := null;
    }

    /** `stopUsingGPS`: does nothing unless running; otherwise disconnects and clears the flag. */
    method StopUsingGPS()
      requires Valid()
      modifies this
      ensures Valid() && !isLocalRunning
      ensures executed == old(executed) && localLatLng == old(localLatLng)
      ensures clientConnected == (old(clientConnected) && !old(isLocalRunning))
    {
      if !isLocalRunning {
        return;
      }
      clientConnected := false;
      isLocalRunning := false;
    }

    /**
     * `startUsingGPS`: a toggle. When running it stops and returns; otherwise
     * it sets the flag and executes the background task, which throws
     * IllegalStateException when it has been executed before, leaving
     * the flag set.
     */
    method StartUsingGPS() returns (thrown: Option<Failure>)
      requires Valid()
      modifies this
      ensures Valid() && localLatLng == old(localLatLng)
      ensures old(isLocalRunning) ==> !isLocalRunning && thrown.None? && !clientConnected && executed
      ensures !old(isLocalRunning) ==> isLocalRunning && executed && clientConnected == old(clientConnected)
      ensures !old(isLocalRunning) ==> (thrown == Some(IllegalState) <==> old(executed))
      ensures !old(isLocalRunning) && !old(executed) ==> thrown.None?
    {
      if isLocalRunning {
        StopUsingGPS();
        return None;
      }
      isLocalRunning := true;
      if executed {
        return Some(IllegalState);
      }
      executed := true;
      return None;
    }
  }

  /**
   * The wearable arrow: the destination, the user's position (a point the
   * location listener shares once a position has arrived) and the two
   * listeners. Handlers of the inner listener that write the arrow's fields
   * are methods of this class.
   */
  class WearRotationArrow {
    var isRunning: bool
    var userLocation: LatLng
    const destination: Coord
    const gps: WearLocationListener
    const giro: Sensors.SensorListener

    /**
     * Both listeners keep their own invariants, and once a position has
     * arrived the user's position is the listener's point itself.
     */
    ghost predicate Valid()
      reads this, gps, giro
    {
      gps.Valid() && giro.Valid() && (gps.localLatLng != null ==> userLocation == gps.localLatLng)
    }

    /** The arrow before `start`: not running, the user at the unknown position (0,0). */
    constructor (destination: Coord)
      ensures Valid() && !isRunning && this.destination == destination
      ensures fresh(gps) && fresh(giro)
      ensures userLocation.Value() == ORIGIN && gps.localLatLng == null
      ensures !gps.isLocalRunning && !gps.executed && gps.clientConnected && !giro.isRunning
    {
      isRunning := false;
      gps := new WearLocationListener();
      giro := new Sensors.SensorListener();
      userLocation := new LatLng(POSITIVE_ZERO, POSITIVE_ZERO);
      this.destination := destination;
    }

    /**
     * `start`: sets the flag, then starts the location listener and the
     * sensors; an exception from the location listener ends it before the
     * sensors are started.
     */
    method Start() returns (thrown: Option<Failure>)
      requires Valid()
      modifies this, gps, giro
      ensures Valid() && isRunning && userLocation == old(userLocation)
      ensures gps.localLatLng == old(gps.localLatLng) && gps.executed
      ensures gps.clientConnected == (old(gps.clientConnected) && !old(gps.isLocalRunning))
      ensures old(gps.isLocalRunning) ==> !gps.isLocalRunning && thrown.None?
      ensures !old(gps.isLocalRunning) ==> gps.isLocalRunning && (thrown.Some? <==> old(gps.executed))
      ensures thrown.None? ==> giro.isRunning && giro.registered == Sensors.BOTH_SENSORS
      ensures thrown.Some? ==> thrown == Some(IllegalState) && giro.isRunning == old(giro.isRunning)
    {
      isRunning := true;
      thrown := gps.StartUsingGPS();
      if thrown.Some? {
        return;
      }
      giro.StartUsingGiro();
    }

    /** `stop`: clears the flag and stops both listeners. */
    method Stop()
      requires Valid()
      modifies this, gps, giro
      ensures Valid() && !isRunning && !gps.isLocalRunning && !giro.isRunning && giro.registered == {}
      ensures userLocation == old(userLocation) && gps.localLatLng == old(gps.localLatLng)
      ensures userLocation.Value() == old(userLocation.Value())
      ensures gps.executed == old(gps.executed)
      ensures gps.clientConnected == (old(gps.clientConnected) && !old(gps.isLocalRunning))
    {
      isRunning := false;
      gps.StopUsingGPS();
      giro.StopUsingGiro();
    }

    /**
     * `updateLocation`: with fewer than two values the array access throws
     * before anything changes. Otherwise the first call creates the stored
     * point and later calls overwrite its fields in place; the user's
     * position becomes that point, and it is published (returned) exactly
     * when it differs from the destination.
     */
    method UpdateLocation(doubles: array<Double>) returns (r: Result<Option<Coord>>)
      requires Valid()
      modifies this, gps, gps.localLatLng
      ensures Valid() && isRunning == old(isRunning)
      ensures gps.isLocalRunning == old(gps.isLocalRunning) && gps.executed == old(gps.executed)
      ensures gps.clientConnected == old(gps.clientConnected)
      ensures doubles.Length < 2 ==>
        r == Err(IndexOutOfBounds) && userLocation == old(userLocation) &&
        userLocation.Value() == old(userLocation.Value()) &&
        gps.localLatLng == old(gps.localLatLng) &&
        (old(gps.localLatLng) != null ==> old(gps.localLatLng).Value() == old(gps.localLatLng.Value()))
      ensures doubles.Length >= 2 ==>
        && r.Ok?
        && gps.localLatLng == userLocation
        && userLocation.Value() == Coord(doubles[0], doubles[1])
        && (old(gps.localLatLng) == null ==> fresh(userLocation))
        && (old(gps.localLatLng) != null ==> userLocation == old(gps.localLatLng))
        && (r.value.Some? <==> IsNewPoint(userLocation.Value(), destination))
        && (r.value.Some? ==> r.value.value == userLocation.Value())
    {
      if doubles.Length < 2 {
        return Err(IndexOutOfBounds);
      }
      if gps.localLatLng == null {
        gps.localLatLng := new LatLng(doubles[0], doubles[1]);
      } else {
        gps.localLatLng.latitude := doubles[0];
        gps.localLatLng.longitude := doubles[1];
      }
      userLocation := gps.localLatLng;
      var point := userLocation.Value();
      if IsNewPoint(point, destination) {
        return Ok(Some(point));
      }
      return Ok(None);
    }

    /**
     * `onMessageReceived`: a message on the position path is decoded and
     * handed to `updateLocation`; one on the stop path clears the flag and
     * stops; any other message changes nothing.
     */
    method OnMessageReceived(path: string, data: array<Byte>) returns (r: Result<Option<Coord>>)
      requires Valid()
      modifies this, gps, gps.localLatLng, giro
      ensures Valid()
      ensures path == GPS_PATH ==>
        var values := Payload.Decode(data[..]);
        && isRunning == old(isRunning) && giro.isRunning == old(giro.isRunning)
        && gps.isLocalRunning == old(gps.isLocalRunning)
        && gps.executed == old(gps.executed) && gps.clientConnected == old(gps.clientConnected)
        && (|values| < 2 ==>
              r == Err(IndexOutOfBounds) && userLocation == old(userLocation) &&
              userLocation.Value() == old(userLocation.Value()))
        && (|values| >= 2 ==>
              && r.Ok?
              && gps.localLatLng == userLocation
              && (old(gps.localLatLng) != null ==> userLocation == old(gps.localLatLng))
              && userLocation.Value() == Coord(values[0], values[1])
              && (r.value.Some? <==> IsNewPoint(Coord(values[0], values[1]), destination)))
      ensures path == STOP_PATH ==>
        r == Ok(None) && !isRunning && !gps.isLocalRunning && !giro.isRunning &&
        userLocation == old(userLocation) && userLocation.Value() == old(userLocation.Value()) &&
        gps.localLatLng == old(gps.localLatLng) && gps.executed == old(gps.executed) &&
        gps.clientConnected == (old(gps.clientConnected) && !old(gps.isLocalRunning))
      ensures path != GPS_PATH && path != STOP_PATH ==>
        r == Ok(None) && unchanged(this, gps, giro) &&
        userLocation.Value() == old(userLocation.Value())
    {
      r := Ok(None);
      if path == GPS_PATH {
        var values := Payload.ToDoubleArray(data);
        r := UpdateLocation(values);
        if r.Err? {
          return;
        }
      }
      if path == STOP_PATH {
        isRunning := false;
        Stop();
      }
    }
  }

  /**
   * A fix sent by the handheld arrives intact: the decoded message holds
   * exactly its latitude and longitude, so the wearable's user position
   * becomes that fix.
   */
  lemma RelayedFixArrives(fix: Coord)
    ensures var values := Payload.Decode(Payload.Encode([fix.latitude, fix.longitude]));
      |values| == 2 && Coord(values[0], values[1]) == fix
  {
    Payload.DecodeEncode([fix.latitude, fix.longitude]);
  }
}
